=== FILE: README.md ===
# SSD post-processing, modelled in Dafny

This project models the post-processing stage of an SSD object detector, as
written in `ssd_utils.py`. That stage has three parts:

- `softmax` normalises each row of class scores by `exp(x - max(x))`.
- `decode_boxes` turns per-prior regression deltas, prior boxes and variances
  into corner-form boxes, then clamps every coordinate into [0, 1].
- `detection_out` works on each image in turn. For every class except the
  background label, it keeps the priors whose score is strictly above
  `confidence_threshold` and passes them to non-maximum suppression (NMS).
  It turns the survivors into `(label, confidence, box)` records. Then it
  sorts all of the image's records by descending confidence and keeps the
  first `keep_top_k`.

Everything is over `real` and written as pure functions on immutable
sequences. Two things are parameters, each constrained by a predicate in
`requires`:

- `exp`: the model assumes only that `exp(x) > 0` and `exp(0) == 1`.
  These laws are `Exponential.ExpPositive` and `Exponential.ExpLaws`.
- NMS: the model assumes only that the indices it returns are in range and
  pairwise distinct, and that there are at most `top_k` of them
  (`Detections.NmsContract`).

Modules follow the stages: `Boxes` (decoding), `Scores` (softmax), `Ranking`
(records, sorting, slicing), `Detections` (the aggregation in
`detection_out`) and `DetectionProperties` (lemmas across calls and images).
`Results` holds the error values and `Exponential` the laws of `exp`.

Decisions:

- **Empty image.** When an image keeps no record at all,
  `np.array([])` is one-dimensional. The `[:, 1]` index at line 108 then
  raises. The model makes this an explicit error, `Err(NoDetections)`, and
  the whole batch fails with it.
  - Returning an empty list for such an image may well be what was intended.
    The model follows the code as written.
  - `DetectionProperties.HighThresholdFails` shows one consequence: a
    threshold of 1 or more makes the call fail rather than return empty
    lists.
- **y-centre offset.** Line 37 scales the y-centre offset by the prior's
  width, and the model keeps that. `Boxes.ConventionalDecodeBox` is the
  usual height-scaled decoding. It is there only for comparison: the model
  proves when the two agree and exhibits an input where they differ.
- **Slicing.** `keep_top_k` is an `int` sliced with Python semantics, so a
  negative value drops records from the end.
- **Labels.** Labels are integers. The code builds them as floats
  (`c * np.ones`).
- **Shapes.** Inputs are already-reshaped sequences. Length agreement
  between deltas, priors, variances and score rows is a precondition, and so
  is `num_classes > 0` (`Detections.BatchShaped`).
- **Empty score row.** `softmax` on a matrix with an empty row is
  `Err(EmptyScoreAxis)`, because `max` of an empty axis raises.

## Model

| member | source | states |
|---|---|---|
| Scores.MaxOf | ssd_utils.py:15 | the maximum of a non-empty row is one of its entries and bounds every entry |
| Scores.ShiftedExps | ssd_utils.py:15 | entry j is exp(x_j - max(x)), and it is positive |
| Scores.SoftmaxRow | ssd_utils.py:15-16 | every normalised entry is in (0, 1], the row sums to 1, and any two entries stand in the ratio of their exp(x - max(x)) |
| Scores.Normalise | ssd_utils.py:16 | positive entries divided by their sum are each in (0, 1], sum to 1, and keep the input's proportions |
| Scores.SoftmaxRows | ssd_utils.py:7-17 | output row i is the softmax of input row i: same shape, each row sums to 1, each entry is in (0, 1] |
| Scores.Softmax | ssd_utils.py:7-17 | fails exactly when some row is empty; otherwise it is the row-by-row softmax: same shape, rows sum to 1, entries positive |
| Boxes.Clamp | ssd_utils.py:51 | a clamped coordinate lies in [0, 1]; it is unchanged if already there, 0 below and 1 above |
| Boxes.ClampBox | ssd_utils.py:51 | each of the four coordinates is clamped on its own: kept when in [0, 1], 0 below, 1 above |
| Boxes.RawDecode | ssd_utils.py:31-46 | the unclamped box is centred on the prior's centre shifted by dx*width*vx and dy*width*vy (width, not height, on the y-axis), and its width and height are the prior's scaled by exp(dw*vw) and exp(dh*vh) |
| Boxes.DecodeBox | ssd_utils.py:31-51 | a decoded box lies in the unit square whatever the deltas and variances; each coordinate is the unclamped coordinate clamped on its own |
| Boxes.DecodeBoxes | ssd_utils.py:31-52 | exactly one box per prior, in the priors' order, each in the unit square |
| Boxes.DecodeKeepsOrder | ssd_utils.py:39-51 | a prior with x0 <= x1 and y0 <= y1 decodes to a box with xmin <= xmax and ymin <= ymax |
| Boxes.ZeroDeltaGivesClampedPrior | ssd_utils.py:35-51 | zero deltas give the prior clamped into [0, 1], whatever the variances |
| Boxes.ZeroDeltaIdentity | ssd_utils.py:35-51 | zero deltas on a prior inside the unit square give back the prior exactly |
| Boxes.DecodeAgreesOnSquarePriors | ssd_utils.py:37 | the width-scaled y-offset agrees with the usual height-scaled decoding on square priors or when dy*vy = 0 |
| Boxes.DecodeScalesYOffsetByWidth | ssd_utils.py:37-38 | on a 0.5-by-0.25 prior with y-offset 0.1, the box moves by 0.05 where the usual decoding moves it by 0.025 |
| Ranking.Insert | ssd_utils.py:108-109 | inserting into a non-increasing list keeps it non-increasing and adds exactly that record |
| Ranking.SortByConfidence | ssd_utils.py:108-109 | the result is non-increasing in confidence and a permutation of the input |
| Ranking.Truncate | ssd_utils.py:110 | Python slice [:k]: a prefix of length min(k, n) for k >= 0, of length max(n + k, 0) for k < 0 |
| Ranking.TopByConfidence | ssd_utils.py:108-110 | non-increasing, a sub-multiset of the input of the sliced length, and no record left out has a higher confidence than a kept one |
| Detections.SelectAbove | ssd_utils.py:95-99 | the selected positions increase strictly, and a position is selected if and only if its score is strictly above the threshold |
| Detections.Column | ssd_utils.py:95 | entry j is prior j's score for class c |
| Detections.Survivors | ssd_utils.py:89-102 | the priors above the threshold, with their boxes and scores, are handed to NMS, and the survivors are those priors at the positions NMS returns, in its order; they are distinct, each scores strictly above the threshold, and number at most top_k; a class with no prior above the threshold has none |
| Detections.ClassDetections | ssd_utils.py:102-105 | one record per survivor, in order, carrying the class, the survivor's class score and its decoded box; at most top_k |
| Detections.ClassDetectionsFromPriors | ssd_utils.py:92-105 | every record of a non-background class carries that class, a confidence above the threshold, and one prior's box and score |
| Detections.CandidatesFrom | ssd_utils.py:92-106 | a record is gathered if and only if it is a record of some non-background class in range, and exactly as often as in its class's records; every gathered record comes from one prior |
| Detections.Candidates | ssd_utils.py:92-106 | every record of the image's classes other than the background, each as often as its class emits it, each from one prior |
| Detections.DetectImage | ssd_utils.py:85-110 | fails exactly when no record was gathered; otherwise the gathered records ranked and sliced: non-increasing, min(keep_top_k, n) long for keep_top_k >= 0 and max(n + keep_top_k, 0) long otherwise, drawn from the gathered records, top confidences kept, each from one prior |
| Detections.ImageProbs | ssd_utils.py:81 | row j of the image's scores is the softmax of its row j of confidences: one entry per class, each in (0, 1] |
| Detections.DetectAt | ssd_utils.py:85-110 | image i fails, with NoDetections, exactly when no class yields a candidate from its decoded boxes and softmaxed scores; otherwise its list is the first keep_top_k of those candidates by descending confidence, and at most keep_top_k long |
| Detections.ImageResults | ssd_utils.py:83-110 | one result per image, in input order, each that image's own |
| Detections.Collect | ssd_utils.py:82-84 | one result per image in input order when every image succeeds; fails exactly when some image fails |
| Detections.DetectionOut | ssd_utils.py:55-111 | one output list per input image, in order, each the image's own result; fails exactly when some image keeps no record |
| DetectionProperties.SurvivorsOfKeepAll | ssd_utils.py:96-102 | with a routine that keeps every box (up to top_k), the survivors are exactly the priors above the threshold, in order |
| DetectionProperties.SurvivorsOfKeepLast | ssd_utils.py:96-102 | with a routine that keeps only the last box it is given, the one survivor is the last prior above the threshold: the survivors are the priors at the indices NMS returns, not all priors above the threshold |
| DetectionProperties.NoDetectionsIffAllClassesEmpty | ssd_utils.py:97-108 | an image gathers no record if and only if every non-background class contributes none |
| DetectionProperties.DetectImageRecords | ssd_utils.py:92-106 | every record of a successful image has a non-background label in range, a confidence above the threshold, and one prior's decoded box and softmax score |
| DetectionProperties.DetectionOutRecords | ssd_utils.py:83-110 | across the batch, every output list is non-increasing, at most keep_top_k long, and made only of records of its own image |
| DetectionProperties.HighThresholdFails | ssd_utils.py:96-108 | with a confidence threshold of at least 1, no score passes, and the call fails on the first image |
| DetectionProperties.KeepNoneGivesEmptyLists | ssd_utils.py:110 | with keep_top_k = 0, every successful output list is empty |

## Left out

- TensorFlow session and graph plumbing (lines 72, 86-91, 100-101): this is runtime state of a foreign library. NMS is the parameter `nms`.
- The internals of `tf.image.non_max_suppression` (line 89): they are not visible. Only valid, distinct indices, at most `top_k` of them, are assumed. No IoU separation between survivors is claimed, and no claim is made that a non-empty input yields a survivor.
- IEEE floating point: overflow, NaN, rounding, and the numerical-stability role of the max-shift in `softmax`. Everything is over `real`, and shift-invariance is not stated.
- `exp` is not defined numerically. Only `exp(x) > 0` and `exp(0) == 1` are assumed.
- NumPy reshaping and layout (lines 73-80): inputs are taken already shaped. Length agreement is a precondition. This includes NumPy broadcasting of length-1 arrays, which would let mismatched lengths through.
- Tie order of the final sort: `argsort(...)[::-1]` is not stable. The model sorts in one fixed way, and its contracts promise only non-increasing order, permutation and top-k selection.
- `top_k` is a `nat`. A negative `max_output_size` belongs to the foreign NMS call.

=== FILE: boxes.dfy ===
/** Box decoding: per-prior regression deltas, prior boxes and variances become
    corner-form boxes clamped into the unit square (decode_boxes in ssd_utils.py). */
module Boxes {
  import opened Exponential

  /** A box in corner form; used both for prior boxes and for decoded boxes. */
  datatype Box = Box(xmin: real, ymin: real, xmax: real, ymax: real)

  /** The four per-prior scale factors applied to the deltas. */
  datatype Variance = Variance(vx: real, vy: real, vw: real, vh: real)

  /** The network's regression output for one prior: centre offsets and log-size offsets. */
  datatype Delta = Delta(dx: real, dy: real, dw: real, dh: real)

  predicate InUnit(x: real)
  {
    0.0 <= x <= 1.0
  }

  predicate InUnitSquare(b: Box)
  {
    InUnit(b.xmin) && InUnit(b.ymin) && InUnit(b.xmax) && InUnit(b.ymax)
  }

  /** Corners in the right order on both axes (zero width or height allowed). */
  predicate Ordered(b: Box)
  {
    b.xmin <= b.xmax && b.ymin <= b.ymax
  }

  function Min(a: real, b: real): real
  {
    if a <= b then a else b
  }

  function Max(a: real, b: real): real
  {
    if a >= b then a else b
  }

  /** One coordinate clamped as minimum(maximum(x, 0.0), 1.0). */
  function Clamp(x: real): (y: real)
    ensures InUnit(y)
    ensures InUnit(x) ==> y == x
    ensures x < 0.0 ==> y == 0.0
    ensures x > 1.0 ==> y == 1.0
  {
    Min(Max(x, 0.0), 1.0)
  }

  /** Clamping never swaps two coordinates. */
  lemma ClampMonotone(x: real, y: real)
    requires x <= y
    ensures Clamp(x) <= Clamp(y)
  {
  }

  /** y is x clamped into [0, 1]: x itself when inside, 0 below and 1 above. */
  predicate ClampedFrom(y: real, x: real)
  {
    (InUnit(x) ==> y == x) && (x < 0.0 ==> y == 0.0) && (x > 1.0 ==> y == 1.0)
  }

  /** Every coordinate of c is the matching coordinate of b clamped on its own. */
  predicate BoxClampedFrom(c: Box, b: Box)
  {
    && ClampedFrom(c.xmin, b.xmin) && ClampedFrom(c.ymin, b.ymin)
    && ClampedFrom(c.xmax, b.xmax) && ClampedFrom(c.ymax, b.ymax)
  }

  /** Clamps the four coordinates independently into [0, 1]. */
  function ClampBox(b: Box): (c: Box)
    ensures InUnitSquare(c)
    ensures BoxClampedFrom(c, b)
  {
    Box(Clamp(b.xmin), Clamp(b.ymin), Clamp(b.xmax), Clamp(b.ymax))
  }

  /** The decoded box before clamping, in centre/size terms: the centre is the
      prior's centre shifted by dx * width * vx and dy * width * vy (the
      y-offset is scaled by the prior's width, as ssd_utils.py does), and the
      width and height are the prior's scaled by exp(dw * vw) and exp(dh * vh). */
  function RawDecode(exp: real -> real, p: Box, v: Variance, d: Delta): (r: Box)
    ensures 0.5 * (r.xmin + r.xmax) == 0.5 * (p.xmin + p.xmax) + d.dx * (p.xmax - p.xmin) * v.vx
    ensures 0.5 * (r.ymin + r.ymax) == 0.5 * (p.ymin + p.ymax) + d.dy * (p.xmax - p.xmin) * v.vy
    ensures r.xmax - r.xmin == exp(d.dw * v.vw) * (p.xmax - p.xmin)
    ensures r.ymax - r.ymin == exp(d.dh * v.vh) * (p.ymax - p.ymin)
  {
    var pw := p.xmax - p.xmin;
    var ph := p.ymax - p.ymin;
    var pcx := 0.5 * (p.xmax + p.xmin);
    var pcy := 0.5 * (p.ymax + p.ymin);
    var cx := d.dx * pw * v.vx + pcx;
    var cy := d.dy * pw * v.vy + pcy;
    var w := exp(d.dw * v.vw) * pw;
    var h := exp(d.dh * v.vh) * ph;
    Box(cx - 0.5 * w, cy - 0.5 * h, cx + 0.5 * w, cy + 0.5 * h)
  }

  /** Decodes one prior and clamps every coordinate into [0, 1]. Whatever the
      deltas and variances, the result lies in the unit square; each coordinate
      is clamped on its own, so one that already lies in [0, 1] is unchanged. */
  function DecodeBox(exp: real -> real, p: Box, v: Variance, d: Delta): (b: Box)
    ensures InUnitSquare(b)
    ensures BoxClampedFrom(b, RawDecode(exp, p, v, d))
    ensures InUnitSquare(RawDecode(exp, p, v, d)) ==> b == RawDecode(exp, p, v, d)
  {
    ClampBox(RawDecode(exp, p, v, d))
  }

  /** Decodes every prior of one image: one box per prior, in the priors' order,
      each in the unit square. */
  function DecodeBoxes(exp: real -> real, priors: seq<Box>, variances: seq<Variance>, deltas: seq<Delta>): (r: seq<Box>)
    requires |variances| == |priors| && |deltas| == |priors|
    ensures |r| == |priors|
    ensures forall i :: 0 <= i < |r| ==> r[i] == DecodeBox(exp, priors[i], variances[i], deltas[i])
    ensures forall i :: 0 <= i < |r| ==> InUnitSquare(r[i])
  {
    seq(|priors|, i requires 0 <= i < |priors| => DecodeBox(exp, priors[i], variances[i], deltas[i]))
  }

  /** A prior with its corners in order decodes to a box with its corners in
      order: the decoded width and height are exp(..) times the prior's
      non-negative width and height, and clamping is monotone. */
  lemma DecodeKeepsOrder(exp: real -> real, p: Box, v: Variance, d: Delta)
    requires ExpPositive(exp)
    requires Ordered(p)
    ensures Ordered(DecodeBox(exp, p, v, d))
  {
    var raw := RawDecode(exp, p, v, d);
    var ew := exp(d.dw * v.vw);
    var eh := exp(d.dh * v.vh);
    assert ew * (p.xmax - p.xmin) >= 0.0;
    assert eh * (p.ymax - p.ymin) >= 0.0;
    assert Ordered(raw);
    ClampMonotone(raw.xmin, raw.xmax);
    ClampMonotone(raw.ymin, raw.ymax);
  }

  /** Zero deltas reproduce the prior, clamped into the unit square, whatever
      the variances. */
  lemma ZeroDeltaGivesClampedPrior(exp: real -> real, p: Box, v: Variance)
    requires ExpLaws(exp)
    ensures DecodeBox(exp, p, v, Delta(0.0, 0.0, 0.0, 0.0)) == ClampBox(p)
  {
    var d := Delta(0.0, 0.0, 0.0, 0.0);
    assert d.dw * v.vw == 0.0 && d.dh * v.vh == 0.0;
    assert d.dx * (p.xmax - p.xmin) * v.vx == 0.0;
    assert d.dy * (p.xmax - p.xmin) * v.vy == 0.0;
    assert RawDecode(exp, p, v, d) == p;
  }

  /** Zero deltas on a prior inside the unit square give back the prior exactly. */
  lemma ZeroDeltaIdentity(exp: real -> real, p: Box, v: Variance)
    requires ExpLaws(exp)
    requires InUnitSquare(p)
    ensures DecodeBox(exp, p, v, Delta(0.0, 0.0, 0.0, 0.0)) == p
  {
    ZeroDeltaGivesClampedPrior(exp, p, v);
  }

  /** The usual SSD decoding before clamping, which scales the y-centre offset
      by the prior's height. */
  function ConventionalRawDecode(exp: real -> real, p: Box, v: Variance, d: Delta): Box
  {
    var pw := p.xmax - p.xmin;
    var ph := p.ymax - p.ymin;
    var cx := d.dx * pw * v.vx + 0.5 * (p.xmax + p.xmin);
    var cy := d.dy * ph * v.vy + 0.5 * (p.ymax + p.ymin);
    var w := exp(d.dw * v.vw) * pw;
    var h := exp(d.dh * v.vh) * ph;
    Box(cx - 0.5 * w, cy - 0.5 * h, cx + 0.5 * w, cy + 0.5 * h)
  }

  /** The usual SSD decoding, clamped. Defined only to compare it with the
      decoding the code performs. */
  function ConventionalDecodeBox(exp: real -> real, p: Box, v: Variance, d: Delta): Box
  {
    ClampBox(ConventionalRawDecode(exp, p, v, d))
  }

  /** The code's decoding agrees with the usual one on square priors and
      whenever the scaled y-offset is zero. */
  lemma DecodeAgreesOnSquarePriors(exp: real -> real, p: Box, v: Variance, d: Delta)
    requires p.xmax - p.xmin == p.ymax - p.ymin || d.dy * v.vy == 0.0
    ensures DecodeBox(exp, p, v, d) == ConventionalDecodeBox(exp, p, v, d)
  {
    var pw := p.xmax - p.xmin;
    var ph := p.ymax - p.ymin;
    if pw != ph {
      assert d.dy * pw * v.vy == (d.dy * v.vy) * pw == 0.0;
      assert d.dy * ph * v.vy == (d.dy * v.vy) * ph == 0.0;
    }
    assert d.dy * pw * v.vy == d.dy * ph * v.vy;
    assert RawDecode(exp, p, v, d) == ConventionalRawDecode(exp, p, v, d);
  }

  /** On a prior twice as wide as it is tall, a y-offset of 0.1 moves the box
      by 0.05 (0.1 times the width), where the usual decoding moves it by 0.025. */
  lemma DecodeScalesYOffsetByWidth(exp: real -> real)
    requires ExpLaws(exp)
    ensures DecodeBox(exp, Box(0.0, 0.0, 0.5, 0.25), Variance(1.0, 1.0, 1.0, 1.0), Delta(0.0, 0.1, 0.0, 0.0))
         == Box(0.0, 0.05, 0.5, 0.3)
    ensures ConventionalDecodeBox(exp, Box(0.0, 0.0, 0.5, 0.25), Variance(1.0, 1.0, 1.0, 1.0), Delta(0.0, 0.1, 0.0, 0.0))
         == Box(0.0, 0.025, 0.5, 0.275)
  {
    assert 0.0 * 1.0 == 0.0;
  }
}

=== FILE: detections.dfy ===
/** The aggregation logic of detection_out in ssd_utils.py, over already-reshaped
    sequences: per image, per non-background class, confidence filtering, NMS
    (an oracle), labelling, then ranking and truncation. */
module Detections {
  import opened Exponential
  import opened Results
  import opened Boxes
  import opened Scores
  import opened Ranking

  /** The tuning parameters of detection_out. */
  datatype Config = Config(
    numClasses: nat,
    backgroundLabel: int,
    nmsThresh: real,
    topK: nat,
    keepTopK: int,
    confThreshold: real)

  /** Non-maximum suppression: given boxes, their scores, a maximum output size
      and an IoU threshold, returns indices into the boxes. */
  type Nms = (seq<Box>, seq<real>, nat, real) -> seq<nat>

  /** Indices that are in range and pairwise distinct, at most k of them. */
  predicate ValidSelection(idx: seq<nat>, n: nat, k: nat)
  {
    && |idx| <= k
    && (forall i :: 0 <= i < |idx| ==> idx[i] < n)
    && (forall i, j :: 0 <= i < j < |idx| ==> idx[i] != idx[j])
  }

  /** All that is assumed of the suppression routine. */
  ghost predicate NmsContract(nms: Nms)
  {
    forall boxes, scores, k, t ::
      |boxes| == |scores| ==> ValidSelection(nms(boxes, scores, k, t), |boxes|, k)
  }

  /** Class probabilities of one image: one row per prior, one entry per class. */
  predicate ScoresShaped(cfg: Config, nPriors: nat, probs: seq<seq<real>>)
  {
    |probs| == nPriors && forall j :: 0 <= j < |probs| ==> |probs[j]| == cfg.numClasses
  }

  /** Positions, in increasing order, of the scores strictly above the threshold. */
  function SelectAbove(col: seq<real>, thr: real): (sel: seq<nat>)
    ensures forall k :: 0 <= k < |sel| ==> sel[k] < |col| && col[sel[k]] > thr
    ensures forall j :: 0 <= j < |col| && col[j] > thr ==> j in sel
    ensures forall k, l :: 0 <= k < l < |sel| ==> sel[k] < sel[l]
  {
    if |col| == 0 then []
    else
      var pre := SelectAbove(col[..|col| - 1], thr);
      if col[|col| - 1] > thr then pre + [|col| - 1] else pre
  }

  /** Scores of class c for every prior. */
  function Column(probs: seq<seq<real>>, c: nat): (col: seq<real>)
    requires forall j :: 0 <= j < |probs| ==> c < |probs[j]|
    ensures |col| == |probs|
    ensures forall j :: 0 <= j < |col| ==> col[j] == probs[j][c]
  {
    seq(|probs|, j requires 0 <= j < |probs| => probs[j][c])
  }

  /** The entries of s at the given positions, in the order given. */
  function Pick<T>(s: seq<T>, at: seq<nat>): (r: seq<T>)
    requires forall k :: 0 <= k < |at| ==> at[k] < |s|
    ensures |r| == |at|
    ensures forall k :: 0 <= k < |r| ==> r[k] == s[at[k]]
  {
    seq(|at|, k requires 0 <= k < |at| => s[at[k]])
  }

  /** The priors of one class that survive: the priors scoring above the
      confidence threshold are handed to NMS (when there are any), and the
      indices it returns are mapped back to prior positions. They are distinct
      priors, each scoring strictly above the threshold, at most topK of them. */
  function Survivors(nms: Nms, cfg: Config, boxes: seq<Box>, col: seq<real>): (surv: seq<nat>)
    requires NmsContract(nms)
    requires |col| == |boxes|
    ensures |surv| <= cfg.topK
    ensures forall k :: 0 <= k < |surv| ==> surv[k] < |boxes| && col[surv[k]] > cfg.confThreshold
    ensures |SelectAbove(col, cfg.confThreshold)| == 0 ==> surv == []
    ensures forall k, l :: 0 <= k < l < |surv| ==> surv[k] != surv[l]
    ensures var sel := SelectAbove(col, cfg.confThreshold);
      |sel| > 0 ==>
        var idx := nms(Pick(boxes, sel), Pick(col, sel), cfg.topK, cfg.nmsThresh);
        ValidSelection(idx, |sel|, cfg.topK) && surv == Pick(sel, idx)
  {
    var sel := SelectAbove(col, cfg.confThreshold);
    if |sel| == 0 then []
    else
      var kept := Pick(boxes, sel);
      var idx := nms(kept, Pick(col, sel), cfg.topK, cfg.nmsThresh);
      assert ValidSelection(idx, |kept|, cfg.topK);
      Pick(sel, idx)
  }

  /** The records class c contributes: one per survivor, carrying c, the
      survivor's class-c score and its decoded box. */
  function ClassDetections(nms: Nms, cfg: Config, boxes: seq<Box>, probs: seq<seq<real>>, c: nat): (r: seq<Detection>)
    requires NmsContract(nms)
    requires c < cfg.numClasses
    requires ScoresShaped(cfg, |boxes|, probs)
    ensures |r| <= cfg.topK
    ensures var surv := Survivors(nms, cfg, boxes, Column(probs, c));
      |r| == |surv| &&
      forall k :: 0 <= k < |r| ==> r[k] == Detection(c, probs[surv[k]][c], boxes[surv[k]])
  {
    var surv := Survivors(nms, cfg, boxes, Column(probs, c));
    seq(|surv|, k requires 0 <= k < |surv| => Detection(c, probs[surv[k]][c], boxes[surv[k]]))
  }

  /** What any record of an image satisfies: a non-background class in range,
      a confidence strictly above the threshold, and the decoded box and class
      score of one prior. */
  ghost predicate FromSomePrior(cfg: Config, boxes: seq<Box>, probs: seq<seq<real>>, d: Detection)
    requires ScoresShaped(cfg, |boxes|, probs)
  {
    && 0 <= d.classLabel < cfg.numClasses
    && d.classLabel != cfg.backgroundLabel
    && d.conf > cfg.confThreshold
    && exists j :: 0 <= j < |boxes| && d.box == boxes[j] && d.conf == probs[j][d.classLabel]
  }

  lemma ClassDetectionsFromPriors(nms: Nms, cfg: Config, boxes: seq<Box>, probs: seq<seq<real>>, c: nat)
    requires NmsContract(nms)
    requires c < cfg.numClasses && c != cfg.backgroundLabel
    requires ScoresShaped(cfg, |boxes|, probs)
    ensures forall d :: d in ClassDetections(nms, cfg, boxes, probs, c) ==>
      d.classLabel == c && FromSomePrior(cfg, boxes, probs, d)
  {
    var r := ClassDetections(nms, cfg, boxes, probs, c);
    var surv := Survivors(nms, cfg, boxes, Column(probs, c));
    forall d | d in r
      ensures d.classLabel == c && FromSomePrior(cfg, boxes, probs, d)
    {
      var k :| 0 <= k < |r| && r[k] == d;
      assert d.box == boxes[surv[k]] && d.conf == probs[surv[k]][c];
    }
  }

  /** The concatenation, for the classes from c upwards, of every class's
      records, skipping the background class. A record occurs exactly as often
      as in the records of its own class (records repeat when two priors of a
      class decode to the same box with the same score), and not at all when its
      class is below c, out of range or the background. */
  function CandidatesFrom(nms: Nms, cfg: Config, boxes: seq<Box>, probs: seq<seq<real>>, c: nat): (r: seq<Detection>)
    requires NmsContract(nms)
    requires ScoresShaped(cfg, |boxes|, probs)
    requires c <= cfg.numClasses
    ensures forall d :: d in r ==> c <= d.classLabel && FromSomePrior(cfg, boxes, probs, d)
    ensures forall d :: d in r <==>
      (c <= d.classLabel < cfg.numClasses && d.classLabel != cfg.backgroundLabel &&
       d in ClassDetections(nms, cfg, boxes, probs, d.classLabel))
    ensures forall d ::
              multiset(r)[d] ==
                if c <= d.classLabel < cfg.numClasses && d.classLabel != cfg.backgroundLabel
                then multiset(ClassDetections(nms, cfg, boxes, probs, d.classLabel))[d] else 0
    decreases cfg.numClasses - c
  {
    if c == cfg.numClasses then []
    else
      var rest := CandidatesFrom(nms, cfg, boxes, probs, c + 1);
      if c == cfg.backgroundLabel then rest
      else
        ClassDetectionsFromPriors(nms, cfg, boxes, probs, c);
        ClassDetections(nms, cfg, boxes, probs, c) + rest
  }

  /** The records of every non-background class of one image, before ranking:
      each record comes from one prior, and occurs exactly as often as in the
      records of its class. */
  function Candidates(nms: Nms, cfg: Config, boxes: seq<Box>, probs: seq<seq<real>>): (r: seq<Detection>)
    requires NmsContract(nms)
    requires ScoresShaped(cfg, |boxes|, probs)
    ensures forall d :: d in r ==> FromSomePrior(cfg, boxes, probs, d)
    ensures forall d ::
              multiset(r)[d] ==
                if 0 <= d.classLabel < cfg.numClasses && d.classLabel != cfg.backgroundLabel
                then multiset(ClassDetections(nms, cfg, boxes, probs, d.classLabel))[d] else 0
  {
    CandidatesFrom(nms, cfg, boxes, probs, 0)
  }

  /** Shapes that let detection_out index every image: per image, as many
      deltas, priors, variances and score rows, each score row holding one
      entry per class. */
  predicate BatchShaped(cfg: Config, loc: seq<seq<Delta>>, conf: seq<seq<seq<real>>>,
                        priors: seq<seq<Box>>, variances: seq<seq<Variance>>)
  {
    && cfg.numClasses > 0
    && |conf| >= |loc| && |priors| >= |loc| && |variances| >= |loc|
    && forall i :: 0 <= i < |loc| ==>
         && |priors[i]| == |loc[i]| && |variances[i]| == |loc[i]|
         && ScoresShaped(cfg, |loc[i]|, conf[i])
  }

  /** One image: decode its boxes, gather every class's records, then rank and
      slice them. An image without any record is an error, as in the code. A
      successful result is non-increasing in confidence, holds at most keepTopK
      records, and holds only records of non-background classes above the
      threshold, each the decoded box and score of one prior; no record left
      out ranks above one kept. */
  function DetectImage(exp: real -> real, nms: Nms, cfg: Config, deltas: seq<Delta>,
                       priors: seq<Box>, variances: seq<Variance>, probs: seq<seq<real>>): (r: Result<seq<Detection>>)
    requires NmsContract(nms)
    requires |priors| == |deltas| && |variances| == |deltas|
    requires ScoresShaped(cfg, |deltas|, probs)
    ensures var cand := Candidates(nms, cfg, DecodeBoxes(exp, priors, variances, deltas), probs);
      && (r.Err? <==> |cand| == 0)
      && (r.Err? ==> r.error == NoDetections)
      && (r.Ok? ==> RankedSlice(r.value, cand, cfg.keepTopK))
    ensures r.Ok? ==> forall d :: d in r.value ==>
      FromSomePrior(cfg, DecodeBoxes(exp, priors, variances, deltas), probs, d)
  {
    var boxes := DecodeBoxes(exp, priors, variances, deltas);
    var cand := Candidates(nms, cfg, boxes, probs);
    if |cand| == 0 then Err(NoDetections)
    else
      var out := TopByConfidence(cand, cfg.keepTopK);
      assert forall d :: d in out ==> d in cand by {
        forall d | d in out
          ensures d in cand
        {
          assert d in multiset(out);
        }
      }
      Ok(out)
  }

  /** Softmax-normalised scores of image i. */
  function ImageProbs(exp: real -> real, cfg: Config, loc: seq<seq<Delta>>, conf: seq<seq<seq<real>>>,
                      priors: seq<seq<Box>>, variances: seq<seq<Variance>>, i: nat): (p: seq<seq<real>>)
    requires ExpPositive(exp)
    requires BatchShaped(cfg, loc, conf, priors, variances)
    requires i < |loc|
    ensures ScoresShaped(cfg, |loc[i]|, p)
    ensures forall j, c :: 0 <= j < |p| && 0 <= c < |p[j]| ==> 0.0 < p[j][c] <= 1.0
    ensures forall j :: 0 <= j < |p| ==> p[j] == SoftmaxRow(exp, conf[i][j])
  {
    SoftmaxRows(exp, conf[i])
  }

  /** Image i of the batch, as detection_out processes it. */
  function DetectAt(exp: real -> real, nms: Nms, cfg: Config, loc: seq<seq<Delta>>, conf: seq<seq<seq<real>>>,
                    priors: seq<seq<Box>>, variances: seq<seq<Variance>>, i: nat): (r: Result<seq<Detection>>)
    requires ExpPositive(exp) && NmsContract(nms)
    requires BatchShaped(cfg, loc, conf, priors, variances)
    requires i < |loc|
    ensures r.Err? ==> r.error == NoDetections
    ensures r.Ok? ==> NonIncreasing(r.value)
    ensures r.Ok? && cfg.keepTopK >= 0 ==> |r.value| <= cfg.keepTopK
    ensures var cand := Candidates(nms, cfg, DecodeBoxes(exp, priors[i], variances[i], loc[i]), SoftmaxRows(exp, conf[i]));
      (r.Err? <==> |cand| == 0) && (r.Ok? ==> RankedSlice(r.value, cand, cfg.keepTopK))
  {
    var r := DetectImage(exp, nms, cfg, loc[i], priors[i], variances[i], ImageProbs(exp, cfg, loc, conf, priors, variances, i));
    var cand := Candidates(nms, cfg, DecodeBoxes(exp, priors[i], variances[i], loc[i]), ImageProbs(exp, cfg, loc, conf, priors, variances, i));
    if r.Ok? then RankedSliceBounded(r.value, cand, cfg.keepTopK); r else r
  }

  /** Per-image results gathered in order; the first failing image makes the
      whole batch fail, and no partial result is returned. */
  function Collect<T>(results: seq<Result<T>>): (r: Result<seq<T>>)
    ensures r.Ok? ==> |r.value| == |results|
    ensures r.Ok? ==> forall i :: 0 <= i < |results| ==> results[i] == Ok(r.value[i])
    ensures r.Err? <==> exists i :: 0 <= i < |results| && results[i].Err?
    ensures r.Err? ==> exists i :: 0 <= i < |results| && results[i] == Err(r.error)
  {
    if |results| == 0 then Ok([])
    else
      match results[0]
      case Err(e) => Err(e)
      case Ok(out) =>
        match Collect(results[1..])
        case Err(e) => Err(e)
        case Ok(rest) => Ok([out] + rest)
  }

  /** The result of every image, in input order. */
  function ImageResults(exp: real -> real, nms: Nms, cfg: Config, loc: seq<seq<Delta>>, conf: seq<seq<seq<real>>>,
                        priors: seq<seq<Box>>, variances: seq<seq<Variance>>): (rs: seq<Result<seq<Detection>>>)
    requires ExpPositive(exp) && NmsContract(nms)
    requires BatchShaped(cfg, loc, conf, priors, variances)
    ensures |rs| == |loc|
    ensures forall i :: 0 <= i < |loc| ==> rs[i] == DetectAt(exp, nms, cfg, loc, conf, priors, variances, i)
  {
    seq(|loc|, i requires 0 <= i < |loc| => DetectAt(exp, nms, cfg, loc, conf, priors, variances, i))
  }

  /** detection_out: one ranked, sliced list of records per input image, in the
      input order, or NoDetections when some image keeps no record. */
  function DetectionOut(exp: real -> real, nms: Nms, cfg: Config, loc: seq<seq<Delta>>, conf: seq<seq<seq<real>>>,
                        priors: seq<seq<Box>>, variances: seq<seq<Variance>>): (r: Result<seq<seq<Detection>>>)
    requires ExpPositive(exp) && NmsContract(nms)
    requires BatchShaped(cfg, loc, conf, priors, variances)
    ensures r.Ok? ==> |r.value| == |loc|
    ensures r.Ok? ==> forall i :: 0 <= i < |loc| ==>
      DetectAt(exp, nms, cfg, loc, conf, priors, variances, i) == Ok(r.value[i])
    ensures r.Err? <==> exists i :: 0 <= i < |loc| && DetectAt(exp, nms, cfg, loc, conf, priors, variances, i).Err?
    ensures r.Err? ==> r.error == NoDetections
  {
    Collect(ImageResults(exp, nms, cfg, loc, conf, priors, variances))
  }
}

=== FILE: exponential.dfy ===
/** The exponential function is not modelled numerically: operations take it as a
    parameter and state only the laws they rely on. */
module Exponential {

  /** exp never returns zero or a negative number. */
  ghost predicate ExpPositive(exp: real -> real)
  {
    forall x :: exp(x) > 0.0
  }

  /** The two laws of exp used anywhere in the model. */
  ghost predicate ExpLaws(exp: real -> real)
  {
    ExpPositive(exp) && exp(0.0) == 1.0
  }
}

=== FILE: properties.dfy ===
/** Properties of detection_out that relate several calls or hold across a batch. */
module DetectionProperties {
  import opened Exponential
  import opened Results
  import opened Boxes
  import opened Scores
  import opened Ranking
  import opened Detections

  /** A suppression routine that keeps every box, up to the first k. */
  function KeepAll(boxes: seq<Box>, scores: seq<real>, k: nat, t: real): (idx: seq<nat>)
    ensures |idx| == if |boxes| <= k then |boxes| else k
    ensures forall i :: 0 <= i < |idx| ==> idx[i] == i
  {
    seq(if |boxes| <= k then |boxes| else k, (i: int) requires 0 <= i => i as nat)
  }

  /** With a routine that keeps every box it is given, the survivors of a
      class are exactly the priors above the threshold, in order. */
  lemma SurvivorsOfKeepAll(cfg: Config, boxes: seq<Box>, col: seq<real>)
    requires |col| == |boxes|
    requires |SelectAbove(col, cfg.confThreshold)| <= cfg.topK
    ensures NmsContract(KeepAll)
    ensures Survivors(KeepAll, cfg, boxes, col) == SelectAbove(col, cfg.confThreshold)
  {
  }

  /** A suppression routine that keeps only the last box it is given. */
  function KeepLast(boxes: seq<Box>, scores: seq<real>, k: nat, t: real): (idx: seq<nat>)
    ensures |idx| == if |boxes| > 0 && k > 0 then 1 else 0
    ensures |idx| == 1 ==> idx[0] == |boxes| - 1
  {
    if |boxes| > 0 && k > 0 then [|boxes| - 1] else []
  }

  /** The survivors are the priors at the positions NMS returns, not merely
      the priors above the threshold: with a routine that keeps only the last
      box it is given, the one survivor is the last prior above the
      threshold. */
  lemma SurvivorsOfKeepLast(cfg: Config, boxes: seq<Box>, col: seq<real>)
    requires |col| == |boxes| && cfg.topK > 0
    ensures NmsContract(KeepLast)
    ensures var sel := SelectAbove(col, cfg.confThreshold);
      Survivors(KeepLast, cfg, boxes, col) == if |sel| == 0 then [] else [sel[|sel| - 1]]
  {
  }

  /** Names the first element of a non-empty sequence, so that facts about
      members apply to it. */
  lemma FirstIsMember(s: seq<Detection>)
    ensures |s| > 0 ==> s[0] in s
  {
  }

  /** An image fails exactly when every non-background class contributes no
      record. */
  lemma NoDetectionsIffAllClassesEmpty(nms: Nms, cfg: Config, boxes: seq<Box>, probs: seq<seq<real>>)
    requires NmsContract(nms)
    requires ScoresShaped(cfg, |boxes|, probs)
    ensures |Candidates(nms, cfg, boxes, probs)| == 0 <==>
      forall c: nat :: c < cfg.numClasses && c != cfg.backgroundLabel ==>
        ClassDetections(nms, cfg, boxes, probs, c) == []
  {
    var cand := Candidates(nms, cfg, boxes, probs);
    if |cand| == 0 {
      forall c: nat | c < cfg.numClasses && c != cfg.backgroundLabel
        ensures ClassDetections(nms, cfg, boxes, probs, c) == []
      {
        ClassDetectionsFromPriors(nms, cfg, boxes, probs, c);
        FirstIsMember(ClassDetections(nms, cfg, boxes, probs, c));
      }
    } else {
      var d := cand[0];
      assert d in cand;
      var c: nat := d.classLabel;
      assert d in ClassDetections(nms, cfg, boxes, probs, c);
    }
  }

  /** A record of one image that names a non-background class in range, has a
      confidence strictly above the threshold, and carries the decoded box and
      the softmax score of one of the image's priors. */
  ghost predicate RecordOfImage(exp: real -> real, cfg: Config, deltas: seq<Delta>, priors: seq<Box>,
                                variances: seq<Variance>, rawScores: seq<seq<real>>, d: Detection)
    requires ExpPositive(exp)
    requires |priors| == |deltas| && |variances| == |deltas|
    requires ScoresShaped(cfg, |deltas|, rawScores) && cfg.numClasses > 0
  {
    && 0 <= d.classLabel < cfg.numClasses
    && d.classLabel != cfg.backgroundLabel
    && d.conf > cfg.confThreshold
    && exists j :: 0 <= j < |deltas|
         && d.box == DecodeBox(exp, priors[j], variances[j], deltas[j])
         && d.conf == SoftmaxRow(exp, rawScores[j])[d.classLabel]
  }

  /** Every record of a successful image is a record of that image. */
  lemma DetectImageRecords(exp: real -> real, nms: Nms, cfg: Config, deltas: seq<Delta>, priors: seq<Box>,
                           variances: seq<Variance>, rawScores: seq<seq<real>>)
    requires ExpPositive(exp) && NmsContract(nms)
    requires |priors| == |deltas| && |variances| == |deltas|
    requires ScoresShaped(cfg, |deltas|, rawScores) && cfg.numClasses > 0
    ensures var r := DetectImage(exp, nms, cfg, deltas, priors, variances, SoftmaxRows(exp, rawScores));
      r.Ok? ==> forall d :: d in r.value ==> RecordOfImage(exp, cfg, deltas, priors, variances, rawScores, d)
  {
    var boxes := DecodeBoxes(exp, priors, variances, deltas);
    var probs := SoftmaxRows(exp, rawScores);
    var r := DetectImage(exp, nms, cfg, deltas, priors, variances, probs);
    var out := if r.Ok? then r.value else [];
    forall d | d in out
      ensures RecordOfImage(exp, cfg, deltas, priors, variances, rawScores, d)
    {
      assert FromSomePrior(cfg, boxes, probs, d);
      var j :| 0 <= j < |boxes| && d.box == boxes[j] && d.conf == probs[j][d.classLabel];
      assert probs[j] == SoftmaxRow(exp, rawScores[j]);
    }
  }

  /** Every list detection_out returns is ranked by non-increasing confidence,
      sliced to keepTopK, and made only of records of its own image. */
  lemma DetectionOutRecords(exp: real -> real, nms: Nms, cfg: Config, loc: seq<seq<Delta>>, conf: seq<seq<seq<real>>>,
                            priors: seq<seq<Box>>, variances: seq<seq<Variance>>)
    requires ExpPositive(exp) && NmsContract(nms)
    requires BatchShaped(cfg, loc, conf, priors, variances)
    ensures var r := DetectionOut(exp, nms, cfg, loc, conf, priors, variances);
      r.Ok? ==> forall i :: 0 <= i < |loc| ==>
        && NonIncreasing(r.value[i])
        && (cfg.keepTopK >= 0 ==> |r.value[i]| <= cfg.keepTopK)
        && forall d :: d in r.value[i] ==> RecordOfImage(exp, cfg, loc[i], priors[i], variances[i], conf[i], d)
  {
    var r := DetectionOut(exp, nms, cfg, loc, conf, priors, variances);
    if r.Ok? {
      var out := r.value;
      forall i | 0 <= i < |loc|
        ensures NonIncreasing(out[i])
        ensures cfg.keepTopK >= 0 ==> |out[i]| <= cfg.keepTopK
        ensures forall d :: d in out[i] ==> RecordOfImage(exp, cfg, loc[i], priors[i], variances[i], conf[i], d)
      {
        assert DetectAt(exp, nms, cfg, loc, conf, priors, variances, i) == Ok(out[i]);
        DetectImageRecords(exp, nms, cfg, loc[i], priors[i], variances[i], conf[i]);
      }
    }
  }

  /** Softmax scores never exceed 1, so a confidence threshold of 1 or more
      keeps no record, and detection_out fails on the first image instead of
      returning empty lists. */
  lemma HighThresholdFails(exp: real -> real, nms: Nms, cfg: Config, loc: seq<seq<Delta>>, conf: seq<seq<seq<real>>>,
                           priors: seq<seq<Box>>, variances: seq<seq<Variance>>)
    requires ExpPositive(exp) && NmsContract(nms)
    requires BatchShaped(cfg, loc, conf, priors, variances)
    requires cfg.confThreshold >= 1.0
    requires |loc| > 0
    ensures DetectionOut(exp, nms, cfg, loc, conf, priors, variances) == Err(NoDetections)
  {
    var boxes := DecodeBoxes(exp, priors[0], variances[0], loc[0]);
    var probs := ImageProbs(exp, cfg, loc, conf, priors, variances, 0);
    var cand := Candidates(nms, cfg, boxes, probs);
    FirstIsMember(cand);
    assert |cand| == 0;
    assert DetectAt(exp, nms, cfg, loc, conf, priors, variances, 0).Err?;
  }

  /** With keepTopK = 0 every image that succeeds yields an empty list. */
  lemma KeepNoneGivesEmptyLists(exp: real -> real, nms: Nms, cfg: Config, loc: seq<seq<Delta>>, conf: seq<seq<seq<real>>>,
                                priors: seq<seq<Box>>, variances: seq<seq<Variance>>)
    requires ExpPositive(exp) && NmsContract(nms)
    requires BatchShaped(cfg, loc, conf, priors, variances)
    requires cfg.keepTopK == 0
    ensures var r := DetectionOut(exp, nms, cfg, loc, conf, priors, variances);
      r.Ok? ==> forall i :: 0 <= i < |loc| ==> r.value[i] == []
  {
    DetectionOutRecords(exp, nms, cfg, loc, conf, priors, variances);
  }
}

=== FILE: ranking.dfy ===
/** Detection records and their final ranking in one image: sort by descending
    confidence, then keep a prefix (lines 107-110 of ssd_utils.py). */
module Ranking {
  import opened Boxes

  /** One output row (label, confidence, xmin, ymin, xmax, ymax). */
  datatype Detection = Detection(classLabel: int, conf: real, box: Box)

  predicate NonIncreasing(s: seq<Detection>)
  {
    forall i, j :: 0 <= i < j < |s| ==> s[i].conf >= s[j].conf
  }

  /** Inserts d into a non-increasing sequence, before the first record of
      lower confidence. */
  function Insert(d: Detection, s: seq<Detection>): (r: seq<Detection>)
    requires NonIncreasing(s)
    ensures NonIncreasing(r)
    ensures multiset(r) == multiset(s) + multiset{d}
    ensures |r| == |s| + 1
    ensures r[0] == d || (|s| > 0 && r[0] == s[0])
  {
    if |s| == 0 || d.conf >= s[0].conf then [d] + s
    else
      assert s == [s[0]] + s[1..];
      [s[0]] + Insert(d, s[1..])
  }

  /** Orders records by non-increasing confidence. The tie order is one
      admissible choice; the contract does not fix it. */
  function SortByConfidence(s: seq<Detection>): (r: seq<Detection>)
    ensures NonIncreasing(r)
    ensures multiset(r) == multiset(s)
    ensures |r| == |s|
  {
    if |s| == 0 then []
    else
      assert s == [s[0]] + s[1..];
      Insert(s[0], SortByConfidence(s[1..]))
  }

  /** The slice s[:k] of Python: a prefix of length k for k >= 0, and all but the
      last -k elements for k < 0. */
  function Truncate(s: seq<Detection>, k: int): (r: seq<Detection>)
    ensures |r| <= |s| && r == s[..|r|]
    ensures k >= 0 ==> |r| == if k <= |s| then k else |s|
    ensures k < 0 ==> |r| == if |s| + k >= 0 then |s| + k else 0
  {
    if k >= 0 then (if k <= |s| then s[..k] else s)
    else if |s| + k >= 0 then s[..|s| + k]
    else []
  }

  /** What a sort by descending confidence followed by the slice [:k] leaves of
      s, whatever the tie order: non-increasing, drawn from s, of the slice's
      length for either sign of k, and no record left out ranks above a kept one. */
  ghost predicate RankedSlice(r: seq<Detection>, s: seq<Detection>, k: int)
  {
    && NonIncreasing(r)
    && multiset(r) <= multiset(s)
    && (k >= 0 ==> |r| == if k <= |s| then k else |s|)
    && (k < 0 ==> |r| == if |s| + k >= 0 then |s| + k else 0)
    && forall x, y :: x in r && y in multiset(s) - multiset(r) ==> y.conf <= x.conf
  }

  /** A ranked slice is non-increasing and no longer than a non-negative k. */
  lemma RankedSliceBounded(r: seq<Detection>, s: seq<Detection>, k: int)
    requires RankedSlice(r, s, k)
    ensures NonIncreasing(r)
    ensures k >= 0 ==> |r| <= k
  {
  }

  /** The records a sorted-then-sliced list keeps: non-increasing, drawn from the
      input, as many as the slice allows, and none of the records left out has a
      higher confidence than any record kept. */
  function TopByConfidence(s: seq<Detection>, k: int): (r: seq<Detection>)
    ensures RankedSlice(r, s, k)
    ensures NonIncreasing(r)
    ensures multiset(r) <= multiset(s)
    ensures k >= 0 ==> |r| == if k <= |s| then k else |s|
    ensures k < 0 ==> |r| == if |s| + k >= 0 then |s| + k else 0
    ensures forall x, y :: x in r && y in multiset(s) - multiset(r) ==> y.conf <= x.conf
  {
    var sorted := SortByConfidence(s);
    var r := Truncate(sorted, k);
    PrefixSplit(sorted, |r|);
    r
  }

  /** Splitting a non-increasing sequence: the prefix and the suffix make up the
      whole, and every suffix record is at most every prefix record. */
  lemma PrefixSplit(s: seq<Detection>, n: nat)
    requires NonIncreasing(s)
    requires n <= |s|
    ensures multiset(s[..n]) <= multiset(s)
    ensures multiset(s) - multiset(s[..n]) == multiset(s[n..])
    ensures forall x, y :: x in s[..n] && y in s[n..] ==> y.conf <= x.conf
  {
    assert s == s[..n] + s[n..];
    assert multiset(s) == multiset(s[..n]) + multiset(s[n..]);
    forall x, y | x in s[..n] && y in s[n..]
      ensures y.conf <= x.conf
    {
      var i :| 0 <= i < n && s[..n][i] == x;
      var j :| 0 <= j < |s| - n && s[n..][j] == y;
      assert s[i] == x && s[n + j] == y;
    }
  }
}

=== FILE: results.dfy ===
/** Error results of the post-processing stage.

    ssd_utils.py signals failure by raising; here every failure is a value. */
module Results {

  /** Why a call produced no result.
      - EmptyScoreAxis: a score row has no entries, so its maximum is undefined.
      - NoDetections: an image kept no detection at all; detection_out then
        indexes column 1 of a one-dimensional empty array and raises. */
  datatype Error = EmptyScoreAxis | NoDetections

  datatype Result<+T> = Ok(value: T) | Err(error: Error)
}

=== FILE: scores.dfy ===
/** Softmax over the class axis of the confidence tensor (softmax in ssd_utils.py),
    over the reals and with exp taken as a parameter. */
module Scores {
  import opened Exponential
  import opened Results

  function Sum(s: seq<real>): real
  {
    if |s| == 0 then 0.0 else s[0] + Sum(s[1..])
  }

  /** The largest entry of a non-empty row. */
  function MaxOf(s: seq<real>): (m: real)
    requires |s| > 0
    ensures m in s
    ensures forall i :: 0 <= i < |s| ==> s[i] <= m
  {
    if |s| == 1 then s[0]
    else
      var t := MaxOf(s[1..]);
      if s[0] >= t then s[0] else t
  }

  /** A sum of positive numbers is positive. */
  lemma {:induction false} SumPositive(s: seq<real>)
    requires |s| > 0
    requires forall i :: 0 <= i < |s| ==> s[i] > 0.0
    ensures Sum(s) > 0.0
  {
    if |s| > 1 {
      SumPositive(s[1..]);
    }
  }

  /** Every entry of a sequence of non-negative numbers is at most its sum. */
  lemma {:induction false} EntryAtMostSum(s: seq<real>, j: nat)
    requires j < |s|
    requires forall i :: 0 <= i < |s| ==> s[i] >= 0.0
    ensures s[j] <= Sum(s)
  {
    if j > 0 {
      EntryAtMostSum(s[1..], j - 1);
    } else if |s| > 1 {
      SumNonNegative(s[1..]);
    }
  }

  lemma {:induction false} SumNonNegative(s: seq<real>)
    requires forall i :: 0 <= i < |s| ==> s[i] >= 0.0
    ensures Sum(s) >= 0.0
  {
    if |s| > 0 {
      SumNonNegative(s[1..]);
    }
  }

  /** Dividing every entry by d divides the sum by d. */
  lemma {:induction false} SumDivided(a: seq<real>, b: seq<real>, d: real)
    requires d != 0.0
    requires |a| == |b|
    requires forall i :: 0 <= i < |a| ==> b[i] == a[i] / d
    ensures Sum(b) == Sum(a) / d
  {
    if |a| > 0 {
      SumDivided(a[1..], b[1..], d);
      assert b[0] + Sum(b[1..]) == a[0] / d + Sum(a[1..]) / d;
      assert a[0] / d + Sum(a[1..]) / d == (a[0] + Sum(a[1..])) / d;
    }
  }

  lemma QuotientAtMostOne(a: real, b: real)
    requires 0.0 < b
    requires a <= b
    ensures a / b <= 1.0
  {
    assert a / b * b == a;
  }

  /** Entries of a positive sequence divided by its sum are positive and at most 1. */
  lemma NormalisedInUnit(e: seq<real>, r: seq<real>)
    requires |e| > 0 && |r| == |e|
    requires forall i :: 0 <= i < |e| ==> e[i] > 0.0
    requires Sum(e) > 0.0
    requires forall i :: 0 <= i < |e| ==> r[i] == e[i] / Sum(e)
    ensures forall j :: 0 <= j < |r| ==> 0.0 < r[j] <= 1.0
  {
    forall j | 0 <= j < |r|
      ensures 0.0 < r[j] <= 1.0
    {
      EntryAtMostSum(e, j);
      QuotientAtMostOne(e[j], Sum(e));
    }
  }

  lemma DivSelf(s: real)
    requires s != 0.0
    ensures s / s == 1.0
  {
  }

  /** Two entries divided by the same number keep their ratio. */
  lemma CrossRatio(a: real, b: real, s: real)
    requires s != 0.0
    ensures (a / s) * b == (b / s) * a
  {
    assert (a / s) * b == (a * b) / s;
    assert (b / s) * a == (b * a) / s;
  }

  /** r and e have the same length and any two entries of r stand in the
      ratio of the corresponding entries of e. */
  predicate Proportional(r: seq<real>, e: seq<real>)
  {
    |r| == |e| && forall j, k :: 0 <= j < |r| && 0 <= k < |r| ==> r[j] * e[k] == r[k] * e[j]
  }

  /** Entries divided by a common number stay proportional to the originals. */
  lemma NormalisedProportional(e: seq<real>, r: seq<real>, s: real)
    requires s != 0.0
    requires |r| == |e|
    requires forall i :: 0 <= i < |e| ==> r[i] == e[i] / s
    ensures Proportional(r, e)
  {
    forall j, k | 0 <= j < |r| && 0 <= k < |r|
      ensures r[j] * e[k] == r[k] * e[j]
    {
      CrossRatio(e[j], e[k], s);
    }
  }

  /** Every entry divided by s. */
  function DivideAll(e: seq<real>, s: real): (r: seq<real>)
    requires s != 0.0
    ensures |r| == |e|
    ensures forall i :: 0 <= i < |e| ==> r[i] == e[i] / s
  {
    seq(|e|, j requires 0 <= j < |e| => e[j] / s)
  }

  /** Positive entries divided by their sum make a probability distribution
      whose entries are in the same proportions as the input's. */
  lemma {:induction false} DistributionFacts(e: seq<real>, r: seq<real>)
    requires |e| > 0 && |r| == |e|
    requires forall i :: 0 <= i < |e| ==> e[i] > 0.0
    requires Sum(e) > 0.0
    requires forall i :: 0 <= i < |e| ==> r[i] == e[i] / Sum(e)
    ensures forall j :: 0 <= j < |r| ==> 0.0 < r[j] <= 1.0
    ensures Proportional(r, e)
    ensures Sum(r) == 1.0
  {
    var s := Sum(e);
    SumDivided(e, r, s);
    DivSelf(s);
    NormalisedInUnit(e, r);
    NormalisedProportional(e, r, s);
  }

  /** Positive entries divided by their sum: a probability distribution whose
      entries are in the same proportions as the input's. */
  function Normalise(e: seq<real>): (r: seq<real>)
    requires |e| > 0
    requires forall i :: 0 <= i < |e| ==> e[i] > 0.0
    ensures |r| == |e|
    ensures forall j :: 0 <= j < |r| ==> 0.0 < r[j] <= 1.0
    ensures Proportional(r, e)
    ensures Sum(r) == 1.0
  {
    SumPositive(e);
    var r := DivideAll(e, Sum(e));
    DistributionFacts(e, r);
    r
  }

  /** The shifted exponentials exp(x - max(x)) of a row. */
  function ShiftedExps(exp: real -> real, row: seq<real>): (e: seq<real>)
    requires ExpPositive(exp)
    requires |row| > 0
    ensures |e| == |row|
    ensures forall j :: 0 <= j < |e| ==> e[j] == exp(row[j] - MaxOf(row)) && e[j] > 0.0
  {
    var m := MaxOf(row);
    seq(|row|, j requires 0 <= j < |row| => exp(row[j] - m))
  }

  /** One row normalised by exp(x - max(x)). Every entry is positive and at
      most 1, the entries sum to 1, and any two entries stand in the ratio of
      their shifted exponentials exp(x - max(x)). */
  function SoftmaxRow(exp: real -> real, row: seq<real>): (r: seq<real>)
    requires ExpPositive(exp)
    requires |row| > 0
    ensures |r| == |row|
    ensures forall j :: 0 <= j < |r| ==> 0.0 < r[j] <= 1.0
    ensures Sum(r) == 1.0
    ensures Proportional(r, ShiftedExps(exp, row))
  {
    Normalise(ShiftedExps(exp, row))
  }

  /** Softmax applied to every row of a score matrix whose rows are all
      non-empty: output row i is the softmax of input row i. */
  function SoftmaxRows(exp: real -> real, rows: seq<seq<real>>): (r: seq<seq<real>>)
    requires ExpPositive(exp)
    requires forall i :: 0 <= i < |rows| ==> |rows[i]| > 0
    ensures |r| == |rows|
    ensures forall i :: 0 <= i < |r| ==> r[i] == SoftmaxRow(exp, rows[i])
    ensures forall i :: 0 <= i < |r| ==> |r[i]| == |rows[i]| && Sum(r[i]) == 1.0
    ensures forall i, j :: 0 <= i < |r| && 0 <= j < |r[i]| ==> 0.0 < r[i][j] <= 1.0
  {
    seq(|rows|, i requires 0 <= i < |rows| => SoftmaxRow(exp, rows[i]))
  }

  /** Softmax over the last axis of a score matrix. A row without entries has no
      maximum, so such a matrix is an error; otherwise every output row is a
      probability distribution of the same length as its input row. */
  function Softmax(exp: real -> real, rows: seq<seq<real>>): (r: Result<seq<seq<real>>>)
    requires ExpPositive(exp)
    ensures r.Err? <==> exists i :: 0 <= i < |rows| && |rows[i]| == 0
    ensures r.Err? ==> r.error == EmptyScoreAxis
    ensures r.Ok? ==> r.value == SoftmaxRows(exp, rows)
    ensures r.Ok? ==> |r.value| == |rows|
    ensures r.Ok? ==> forall i :: 0 <= i < |rows| ==> |r.value[i]| == |rows[i]| && Sum(r.value[i]) == 1.0
    ensures r.Ok? ==> forall i, j :: 0 <= i < |rows| && 0 <= j < |r.value[i]| ==> r.value[i][j] > 0.0
  {
    if exists i :: 0 <= i < |rows| && |rows[i]| == 0 then Err(EmptyScoreAxis)
    else Ok(SoftmaxRows(exp, rows))
  }
}
